=== FILE: README.md ===
# TOTP generator — a Dafny model

This project models the core of a browser extension's one-time-password
generator (`totp.js`, the `TOTP` object). The code follows RFC 6238 (TOTP)
and RFC 4226 (HOTP).

- **`base32Decode`** turns a base32 secret into key bytes. It removes
  whitespace, upper-cases the text, skips every character outside the RFC 4648
  alphabet, concatenates 5 bits per symbol, and emits one byte per complete
  8-bit group.
- **`generate`** fills in the option defaults: 6 digits, a 60-second period,
  SHA-256, and the current time. It then:
  1. computes the counter `floor(timestamp / 1000 / period)`;
  2. writes the counter as an unsigned 64-bit big-endian buffer;
  3. asks the platform for an HMAC of that buffer under the decoded key;
  4. applies dynamic truncation;
  5. reduces modulo `10^digits` and zero-pads the decimal string.
- **`getRemainingSeconds`** is the countdown to the next period boundary.

Modules:

- `Base32` (`base32.dfy`) holds the decoder. `Decode` is the reference
  definition. `Base32Decode` is the two-loop method, proved equal to it.
- `Octets` (`octets.dfy`) covers big-endian byte strings.
- `Truncation` (`truncation.dfy`) covers the offset, the masked, shifted and
  or-ed 4-byte window, and JavaScript's signed 32-bit reading of it.
- `Decimal` (`decimal.dfy`) covers `toString` and `padStart`.
- `Totp` (`totp.dfy`) covers options, counter, `Generate` and `RemainingSeconds`.
- `Arith` (`arith.dfy`) holds powers and division facts.

Other modelling choices:

- **HMAC.** `Hmac` is a function parameter: `Some(digest)` on success, `None`
  when `crypto.subtle` rejects (for example, an empty key). The only
  assumption is `ProducesDigests`: a digest is 20, 32 or 64 bytes long for
  SHA-1, SHA-256 and SHA-512.
- **Clock.** `Date.now()` is the parameter `now`, in milliseconds.
- **Results.** `generate` gives `Result<string>`. It fails with `RangeError`
  when the period is 0, because `BigInt` of `Infinity` or `NaN` throws. It
  fails with `HmacRejected` when the platform rejects.

Choices that follow `totp.js` where RFC 6238 or a stricter design would differ:

- the defaults are a 60-second period and SHA-256;
- options are not validated, and there are no invalid-secret or
  invalid-options errors: an empty key reaches the HMAC, and a digit count of
  0 yields `"0"`;
- a negative period is accepted; `Math.floor` then gives a floor division by
  a negative number, which the model reproduces;
- a counter outside `[0, 2^64)` is reduced modulo `2^64` by `setBigUint64`.

## Model

| member | source | states |
|---|---|---|
| Base32.IndexOf | totp.js:7-15 | the result is -1 or a position of the character in the alphabet |
| Base32.IndexOfFirst | totp.js:15 | `indexOf` finds the first occurrence, and is -1 exactly for characters outside the alphabet |
| Base32.IsWhitespace | totp.js:12 | the `\s` class: the ECMAScript white space and line terminator characters; used by `DecodeSkipsWhitespace` |
| Base32.ToUpper | totp.js:12 | `toUpperCase` on ASCII letters; used by `DecodeCaseInsensitive` |
| Base32.Normalize | totp.js:12 | `replace(/\s/g, '').toUpperCase()`: never longer than the input; pinned down by `NormalizeChar` (one character) and `NormalizeAppend` (concatenation) |
| Base32.NormalizeChar | totp.js:12 | a single character normalises to nothing if it is `\s` whitespace and to its upper-case form otherwise |
| Base32.NormalizeAppend | totp.js:12 | normalisation works character by character: `a + b` normalises to the normalised `a` followed by the normalised `b` |
| Base32.NormalizeStrips | totp.js:12 | the normalised text holds no whitespace character and no lower-case ASCII letter |
| Base32.BitsOf | totp.js:14-18 | the bit string of the symbol values, 5 bits each; its length is `5 * n` for `n` values, and `BitsOfValue` gives its value |
| Base32.Bytes | totp.js:20-22 | one byte per complete 8-bit group; specified through `Decode` by `DecodeLength` and `DecodeByte` |
| Base32.Decode | totp.js:6-25 | the key `base32Decode` returns; `Base32Decode` computes it, and `DecodeLength`, `DecodeByte` and the skip and case lemmas state its properties |
| Base32.Base32Decode | totp.js:6-25 | both loops of the decoder compute exactly `Decode`: the bits of the symbols of the normalised text, cut into whole bytes |
| Base32.DecodeSkipsNonSymbol | totp.js:14-16 | deleting a character that is not a base32 symbol leaves the key unchanged |
| Base32.DecodeSkipsWhitespace | totp.js:12 | deleting any `\s` whitespace character leaves the key unchanged |
| Base32.DecodeCaseInsensitive | totp.js:12 | an ASCII lower-case letter `a`-`z` gives the same key as its upper-case form |
| Base32.ValidValues | totp.js:14-16 | the alphabet values, each below 32, of the characters found by `indexOf`, in order, with every -1 skipped (`continue`); specified by `ValidValuesAppend` and, per character, by `SymbolsSplit` |
| Base32.ValidValuesAppend | totp.js:14-16 | the filter works character by character: the values of `a + b` are those of `a` followed by those of `b` |
| Base32.Symbols | totp.js:12-16 | normalise, then keep the alphabet values: at most one value below 32 per input character; specified by `SymbolsSplit`, `SymbolCount` and `DecodeSkipsNonSymbol` |
| Base32.SymbolCount | totp.js:12-16 | the number of symbol values equals the number of input characters that are base32 symbols, counted independently |
| Base32.SymbolsSplit | totp.js:12-18 | the symbols of `a + [c] + b` are those of `a`, then `c`'s value if it is a symbol, then those of `b` |
| Base32.DecodeLength | totp.js:17-22 | the key has `floor(5 * n / 8)` bytes for `n` symbols in the input: a trailing partial byte is dropped |
| Base32.DecodeNoSymbols | totp.js:14-24 | an input with no base32 symbol (empty, blank, `!!!`) decodes to the empty key |
| Base32.DecodeByte | totp.js:17-21 | key byte `k` is bits `8k..8k+7`, most significant first, of the number the symbols spell in base 32 |
| Base32.Bits5 | totp.js:17 | `toString(2).padStart(5, '0')` gives 5 bits whose value is the symbol's value |
| Base32.ByteOf | totp.js:21 | `parseInt` of an 8-bit group is the byte whose value the bits denote |
| Base32.LenientExample | totp.js:12-16 | `"AB CD-ef"` and `"ABCDEF"` decode to the same key |
| Totp.Resolve | totp.js:42-47 | each option that is given is used as is; one left undefined takes its default: 6 digits, a 60-second period, SHA-256, the current time (`DefaultDigits`, `DefaultPeriod`, `DefaultAlgorithm`) |
| Totp.Generate | totp.js:41-74 | a period of 0 rejects with a range error; otherwise the result succeeds exactly when the HMAC of the decoded secret over the counter buffer succeeds, and fails with `HmacRejected` otherwise; for `digits >= 1` the code has `digits` decimal characters whose value is the truncated HMAC modulo `10^digits`, the truncated value lying in `[0, 2^31)`; for 0 digits it is `"0"` |
| Totp.Hotp | totp.js:61-73 | success iff the HMAC succeeds, and `HmacRejected` otherwise; for `digits >= 1` the code has `digits` decimal characters whose value is `binary % 10^digits`; for 0 digits it is `"0"` |
| Totp.SameCounterSameCode | totp.js:53-73 | two timestamps in the same period window give the same result; it follows at once from `Generate` reading the timestamp only through `Counter` |
| Totp.ShortSecretRejected | totp.js:50-61 | on a platform that rejects empty keys, a secret with fewer than two symbols is rejected |
| Totp.FloorDiv | totp.js:53 | `Math.floor` of an integer quotient, for either sign of the divisor; specified through `Counter` by `CounterIsFloor` |
| Totp.Counter | totp.js:53 | the time counter; `CounterIsFloor` proves it is the floor of the exact `timestamp / 1000 / period`, and `CounterWindow`, `CounterStable` and `CounterMonotonic` state its windows |
| Totp.CounterIsFloor | totp.js:53 | the counter is the floor of the exact quotient `timestamp / 1000 / period`, for either sign of the period |
| Totp.CounterWindow | totp.js:53 | for a positive period, a timestamp lies in `[c * 1000 * period, (c + 1) * 1000 * period)` for its counter `c` |
| Totp.CounterStable | totp.js:53 | for a positive period, every timestamp of the window of `c` has counter `c` |
| Totp.CounterMonotonic | totp.js:53 | for a positive period, the counter never decreases as time advances |
| Totp.CounterBytes | totp.js:56-58 | the 8-byte buffer `setBigUint64` writes; specified by `CounterBytesRoundTrip` and `CounterBytesOrder` |
| Totp.CounterBytesRoundTrip | totp.js:56-58 | the buffer holds 8 bytes that read back big-endian as the counter modulo `2^64`, and as the counter itself when it fits |
| Totp.CounterBytesOrder | totp.js:58 | byte `i` of the buffer is base-256 digit `7 - i` of the counter: big-endian order |
| Octets.BigEndian | totp.js:58 | the `n` bytes `setBigUint64(..., false)` writes, most significant first; specified by `BigEndianRoundTrip` and `BigEndianByte` |
| Octets.BigEndianRoundTrip | totp.js:56-58 | writing `v` as `n` big-endian bytes and reading them back gives `v mod 256^n` |
| Octets.BigEndianByte | totp.js:58 | byte `i` of an `n`-byte big-endian encoding is base-256 digit `n - 1 - i` |
| Truncation.Offset | totp.js:64 | the offset is at most 15 |
| Truncation.Int32 | totp.js:66-69 | JavaScript's `ToInt32` of the 32-bit pattern: the integer in `[-2^31, 2^31)` that is congruent to it modulo `2^32` |
| Truncation.Combine | totp.js:65-69 | the masked, shifted and or-ed window; specified by `CombineValue` and `CombineSpec` |
| Truncation.Truncate | totp.js:64-69 | `binary` is in `[0, 2^31)`; `TruncateSpec` states that it is the window at the offset read big-endian with bit 31 cleared |
| Truncation.TruncateSpec | totp.js:64-69 | the window stays inside a digest of 20 or more bytes; `binary` is the window read big-endian with bit 31 cleared, so it lies in `[0, 2^31)` |
| Truncation.CombineSpec | totp.js:65-69 | the masked, shifted and or-ed bytes equal their big-endian value modulo `2^31`, and lie in `[0, 2^31)` |
| Truncation.CombineValue | totp.js:65-69 | the combined bytes are `(b0 mod 128) * 2^24 + b1 * 2^16 + b2 * 2^8 + b3`, so JavaScript's signed reading is never negative |
| Totp.WindowFitsDigest | totp.js:64-69 | for SHA-1, SHA-256 and SHA-512 digests the 4-byte window at the offset lies inside the digest; it follows at once from `Offset` being at most 15 |
| Totp.Rfc4226TruncationExample | totp.js:64-73 | the RFC 4226 (section 5.4) digest gives offset 10, `binary` `0x50ef7f19` and the 6-digit code `"872921"` |
| Decimal.PadStart | totp.js:73 | `padStart`: the result is `length` characters long, or the input when that is already long enough, and ends with the input preceded only by fill characters |
| Decimal.FormatCode | totp.js:72-73 | `otp.toString().padStart(digits, '0')`; specified by `FormatCodeCorrect` and `FormatCodeZeroWidth` |
| Decimal.ToDecimal | totp.js:73 | `toString` of a non-negative integer is a non-empty string of decimal digits |
| Decimal.ToDecimalValue | totp.js:73 | the digits `toString` writes read back as the number |
| Decimal.ToDecimalNoLeadingZero | totp.js:73 | `toString` starts with `0` only for 0 |
| Decimal.ToDecimalFits | totp.js:72-73 | for a width of at least 1, `toString` fits in `width` characters exactly when the number is below `10^width` |
| Decimal.FormatCodeCorrect | totp.js:72-73 | a value below `10^digits` is padded to exactly `digits` decimal characters: zeros followed by `toString`, reading back as the value |
| Decimal.FormatCodeZeroWidth | totp.js:72-73 | with 0 digits the code is `"0"` |
| Totp.RemainingSeconds | totp.js:77-79 | for a positive period and a clock at or after 1970 the result is in `[1, period]`; before 1970 (truncating `%`) it is in `[period, 2 * period)` |
| Totp.JsRem | totp.js:78 | JavaScript's `%`; `JsRemSpec` states its meaning |
| Totp.JsRemSpec | totp.js:78 | the remainder has the sign of the dividend, is smaller than the divisor in magnitude, and differs from the dividend by a multiple of the divisor |
| Totp.GetRemainingSeconds | totp.js:77-79 | an omitted period is 60 seconds, so the result is in `[1, 60]` for a clock at or after 1970; a given period is passed on to `RemainingSeconds` |
| Totp.RemainingCountdown | totp.js:77-79 | for a positive period and a clock at or after 1970, one second later the countdown has dropped by one, or restarted at `period` after reaching 1 |
| Totp.RemainingUntilNextCounter | totp.js:77-79 | for a positive period and a clock at or after 1970, after `r - 1` of the `r` remaining seconds the counter is unchanged; after `r` it has advanced by one |

## Left out

- The HMAC (`totp.js:28-38`, `crypto.subtle.importKey` and `sign`) is a parameter. The hash functions and HMAC themselves are not computed; only the choice among SHA-1, SHA-256 and SHA-512 is modelled. The platform also accepts `'SHA-384'`, which has a 48-byte digest, and it matches algorithm names without regard to case (`'sha-256'` works too); neither is modelled.
- The RFC 6238 test vector (secret `GEZDGNBVGY3TQOJQGEZDGNBVGY3TQOJQ`, SHA-1, 8 digits, 59 s gives `94287082`) needs a real SHA-1, so it is not stated. Likewise, "a different algorithm gives a different code" is not stated.
- Promises and `async`/`await` are not modelled: a rejected promise is a `Failure` result.
- `Date.now()` is the parameter `now`; nothing reads a clock.
- `Totp.Counter`: computes `timestamp / 1000 / period` in exact arithmetic. The source divides in IEEE doubles, which can round differently for timestamps far beyond any real clock.
- `Totp.Options`: digits, period and timestamp are integers, and digits are non-negative. Fractional or negative digit counts, fractional periods and fractional timestamps, which JavaScript would accept, are not modelled.
- `Totp.Hotp`, `Totp.Generate`: promise a code of exactly `digits` characters for every digit count. In the source, `padStart` throws a `RangeError` once `digits` exceeds the engine's maximum string length (about 2^29 characters in V8); the model has no such limit.
- `Totp.RemainingSeconds`: requires a non-zero period. In the source, `getRemainingSeconds(0)` returns `NaN`.
- `Base32.ToUpper`: upper-cases ASCII letters only. `toUpperCase` also maps a few non-ASCII characters onto ASCII letters, which would then decode as symbols: `ı` to `I`, `ſ` to `S`, `ß` to `SS`, and the ligatures `ﬀ`–`ﬆ`, `ŉ`, `ǰ`, `ẖ`, `ẗ`, `ẘ`, `ẙ`, `ẚ`.
- Strings are sequences of characters, not UTF-16 code units. The two differ only for characters outside the Basic Multilingual Plane and for lone surrogates, which a Dafny `char` cannot hold; neither is ever a base32 symbol.
- `window.TOTP = TOTP` (`totp.js:83`), the export to the page, is not modelled, and neither are the callers of this object.

=== FILE: arith.dfy ===
/** Natural-number powers and the division facts the TOTP model relies on. */
module Arith {

  /** `base` raised to the `n`-th power, over the naturals. */
  function Pow(base: nat, n: nat): (r: nat)
    ensures base > 0 ==> r > 0
  {
    if n == 0 then 1 else base * Pow(base, n - 1)
  }

  lemma {:induction false} PowAdd(base: nat, a: nat, b: nat)
    ensures Pow(base, a + b) == Pow(base, a) * Pow(base, b)
  {
    if b > 0 {
      PowAdd(base, a, b - 1);
      calc {
        Pow(base, a + b);
        base * Pow(base, a + b - 1);
        base * (Pow(base, a) * Pow(base, b - 1));
        Pow(base, a) * (base * Pow(base, b - 1));
        Pow(base, a) * Pow(base, b);
      }
    }
  }

  lemma {:induction false} PowMonotonic(base: nat, a: nat, b: nat)
    requires base > 0 && a <= b
    ensures Pow(base, a) <= Pow(base, b)
  {
    PowAdd(base, a, b - a);
    MultipleBound(Pow(base, b - a), Pow(base, a));
  }

  /** Appending one more digit `d` in base `base` below `x * p + y`. */
  lemma ShiftIn(x: int, p: int, y: int, base: int, d: int)
    ensures (x * p + y) * base + d == x * (p * base) + (y * base + d)
  {
  }

  /** Division of `a * m + r` by `m` recovers `a` and `r` when `r` is a remainder. */
  lemma DivModUnique(a: int, m: int, r: int)
    requires m > 0 && 0 <= r < m
    ensures (a * m + r) / m == a && (a * m + r) % m == r
  {
    var q, s := (a * m + r) / m, (a * m + r) % m;
    var d := q - a;
    assert d * m == r - s by {
      assert q * m + s == a * m + r;
      assert d * m == q * m - a * m;
    }
    MultipleBound(d, m);
  }

  /** A non-zero multiple of a positive `m` is at least `m` away from zero. */
  lemma MultipleBound(d: int, m: int)
    requires m > 0
    ensures d >= 1 ==> d * m >= m
    ensures d <= -1 ==> d * m <= -m
  {
    assert d * m == (d - 1) * m + m;
    assert d * m == (d + 1) * m - m;
  }

  /** Dividing by `b` and then by `c` is dividing by `b * c`. */
  lemma DivDiv(a: int, b: int, c: int)
    requires b > 0 && c > 0
    ensures a / b / c == a / (b * c)
  {
    TwoDigits(a, b, c);
  }

  /** A remainder modulo `b * m` splits into the low digit and the next digit in base `b`. */
  lemma ModSplit(v: int, b: int, m: int)
    requires b > 0 && m > 0
    ensures v % (b * m) == v / b % m * b + v % b
  {
    TwoDigits(v, b, m);
  }

  /** `a` written with a low digit in base `b` and the next one in base `c`. */
  lemma TwoDigits(a: int, b: int, c: int)
    requires b > 0 && c > 0
    ensures a / (b * c) == a / b / c
    ensures a % (b * c) == a / b % c * b + a % b
  {
    var q1, r1 := a / b, a % b;
    var q2, r2 := q1 / c, q1 % c;
    DivMod(a, b);
    DivMod(q1, c);
    Regroup(a, q1, r1, q2, r2, b, c);
    DigitBound(r2, c, r1, b);
    DivModUnique(q2, b * c, r2 * b + r1);
  }

  lemma DivMod(a: int, b: int)
    requires b > 0
    ensures a == a / b * b + a % b && 0 <= a % b < b
  {
  }

  lemma Regroup(a: int, q1: int, r1: int, q2: int, r2: int, b: int, c: int)
    requires a == q1 * b + r1 && q1 == q2 * c + r2
    ensures a == q2 * (b * c) + (r2 * b + r1)
  {
    assert q1 * b == (q2 * c + r2) * b;
  }

  lemma DigitBound(r: int, c: int, d: int, b: int)
    requires 0 <= r < c && 0 <= d < b
    ensures 0 <= r * b + d < b * c
  {
    MultipleBound(c - r, b);
    assert (c - r) * b == b * c - r * b;
  }

  /** Integer division by a positive number is the floor of the exact quotient. */
  lemma RealFloor(a: int, b: int)
    requires b > 0
    ensures (a as real / b as real).Floor == a / b
  {
    var q, r := a / b, a % b;
    assert a as real == q as real * b as real + r as real;
    assert a as real / b as real == q as real + r as real / b as real;
    assert 0.0 <= r as real / b as real < 1.0;
  }

  /** Reducing `top * 2^24 + rest` modulo `2^31` clears bit 7 of the top byte. */
  lemma ClearTopBit(top: nat, rest: nat)
    requires top < 0x100 && rest < 0x100_0000
    ensures (top * 0x100_0000 + rest) % 0x8000_0000 == (top % 128) * 0x100_0000 + rest
  {
    var hi, lo := top / 128, top % 128;
    assert top * 0x100_0000 + rest == hi * 0x8000_0000 + (lo * 0x100_0000 + rest);
    DivModUnique(hi, 0x8000_0000, lo * 0x100_0000 + rest);
  }
}

=== FILE: base32.dfy ===
/**
 * The lenient base32 decoder of the TOTP generator (`TOTP.base32Decode`).
 *
 * The input is first normalised (every whitespace character removed, letters
 * upper-cased); each remaining character of the RFC 4648 (section 6) alphabet
 * contributes its 5-bit value, most significant bit first, to a bit string;
 * every other character is skipped. The bit string is then cut into bytes,
 * and a trailing group of fewer than 8 bits is dropped. Decoding never fails.
 */
module Base32 {
  import opened Arith
  import opened Octets

  /** The RFC 4648 base32 alphabet, `A`..`Z` followed by `2`..`7`. */
  const Alphabet: string := "ABCDEFGHIJKLMNOPQRSTUVWXYZ234567"

  /** First position at or after `from` where `c` occurs in the alphabet, or -1. */
  function IndexFrom(c: char, from: nat): (r: int)
    requires from <= |Alphabet|
    ensures r == -1 || from <= r < |Alphabet|
    ensures 0 <= r ==> Alphabet[r] == c
    decreases |Alphabet| - from
  {
    if from == |Alphabet| then -1
    else if Alphabet[from] == c then from
    else IndexFrom(c, from + 1)
  }

  /** `alphabet.indexOf(c)`: the first position of `c` in the alphabet, or -1. */
  function IndexOf(c: char): (r: int)
    ensures -1 <= r < |Alphabet|
    ensures 0 <= r ==> Alphabet[r] == c
  {
    IndexFrom(c, 0)
  }

  lemma {:induction false} IndexFromFirst(c: char, from: nat)
    requires from <= |Alphabet|
    ensures var r := IndexFrom(c, from);
      forall j :: from <= j < |Alphabet| && (r == -1 || j < r) ==> Alphabet[j] != c
    decreases |Alphabet| - from
  {
    if from < |Alphabet| && Alphabet[from] != c {
      IndexFromFirst(c, from + 1);
    }
  }

  /** `IndexOf` finds the first occurrence, and reports -1 exactly for characters outside the alphabet. */
  lemma IndexOfFirst(c: char)
    ensures forall j :: 0 <= j < IndexOf(c) ==> Alphabet[j] != c
    ensures IndexOf(c) == -1 <==> c !in Alphabet
  {
    IndexFromFirst(c, 0);
  }

  /** Every character of the alphabet lies between `2` and `Z`. */
  lemma AlphabetBounds(c: char)
    requires c in Alphabet
    ensures '2' <= c <= 'Z'
  {
  }

  /** A character outside `2`..`Z` that upper-casing leaves alone is not a symbol. */
  lemma OutsideAlphabet(c: char)
    requires c < '2' || 'Z' < c
    requires ToUpper(c) == c
    ensures !IsSymbol(c)
  {
    if c in Alphabet {
      AlphabetBounds(c);
    }
    IndexOfFirst(c);
  }

  /** The characters JavaScript's `\s` class matches. */
  predicate IsWhitespace(c: char)
  {
    || '\U{0009}' <= c <= '\U{000D}'
    || c == ' ' || c == '\U{00A0}' || c == '\U{1680}'
    || '\U{2000}' <= c <= '\U{200A}'
    || c == '\U{2028}' || c == '\U{2029}' || c == '\U{202F}'
    || c == '\U{205F}' || c == '\U{3000}' || c == '\U{FEFF}'
  }

  /** Upper-case mapping of the ASCII letters; every other character is kept. */
  function ToUpper(c: char): char
  {
    if 'a' <= c <= 'z' then (c as int - 'a' as int + 'A' as int) as char else c
  }

  /** `base32.replace(/\s/g, '').toUpperCase()` */
  function Normalize(s: string): (t: string)
    ensures |t| <= |s|
  {
    if s == [] then []
    else
      var c := s[|s| - 1];
      Normalize(s[..|s| - 1]) + (if IsWhitespace(c) then [] else [ToUpper(c)])
  }

  /** The normalised text holds no whitespace and no lower-case ASCII letter. */
  lemma {:induction false} NormalizeStrips(s: string)
    ensures forall i :: 0 <= i < |Normalize(s)| ==>
      !IsWhitespace(Normalize(s)[i]) && !('a' <= Normalize(s)[i] <= 'z')
  {
    if s != [] {
      NormalizeStrips(s[..|s| - 1]);
    }
  }

  lemma WhitespaceIsNotSymbol(c: char)
    requires IsWhitespace(c)
    ensures !IsSymbol(c)
  {
    OutsideAlphabet(c);
  }

  /** A character of the raw input that contributes bits to the key. */
  predicate IsSymbol(c: char)
  {
    IndexOf(ToUpper(c)) != -1
  }

  /** The alphabet values of the characters of `t` that are in the alphabet, in order. */
  function ValidValues(t: string): (vals: seq<nat>)
    ensures |vals| <= |t|
    ensures forall i :: 0 <= i < |vals| ==> vals[i] < 32
  {
    if t == [] then []
    else
      var v := IndexOf(t[|t| - 1]);
      ValidValues(t[..|t| - 1]) + (if v == -1 then [] else [v])
  }

  /** The 5-bit symbol values the input `s` contributes to the key, in input order. */
  function Symbols(s: string): (vals: seq<nat>)
    ensures |vals| <= |s|
    ensures forall i :: 0 <= i < |vals| ==> vals[i] < 32
  {
    ValidValues(Normalize(s))
  }

  /** Number of characters of the raw input that are base32 symbols. */
  function CountSymbols(s: string): nat
  {
    if s == [] then 0 else (if IsSymbol(s[0]) then 1 else 0) + CountSymbols(s[1..])
  }

  type Bit = b: nat | b < 2

  /** The number a bit string denotes, most significant bit first (`parseInt(bits, 2)`). */
  function BitsValue(bits: seq<Bit>): nat
  {
    if bits == [] then 0 else BitsValue(bits[..|bits| - 1]) * 2 + bits[|bits| - 1]
  }

  /** `val.toString(2).padStart(5, '0')`: the five bits of a symbol value. */
  function Bits5(v: nat): (bits: seq<Bit>)
    requires v < 32
    ensures |bits| == 5 && BitsValue(bits) == v
  {
    var bits: seq<Bit> := [v / 16, v / 8 % 2, v / 4 % 2, v / 2 % 2, v % 2];
    assert bits[..1][..0] == [] && bits[..2][..1] == bits[..1] && bits[..3][..2] == bits[..2];
    assert bits[..4][..3] == bits[..3] && bits[..4] == bits[..|bits| - 1];
    assert BitsValue(bits[..1]) == v / 16;
    assert BitsValue(bits[..2]) == v / 8;
    assert BitsValue(bits[..3]) == v / 4;
    assert BitsValue(bits[..4]) == v / 2;
    bits
  }

  /** The bit string built from a sequence of symbol values, 5 bits each. */
  function BitsOf(vals: seq<nat>): (bits: seq<Bit>)
    requires forall i :: 0 <= i < |vals| ==> vals[i] < 32
    ensures |bits| == 5 * |vals|
  {
    if vals == [] then [] else BitsOf(vals[..|vals| - 1]) + Bits5(vals[|vals| - 1])
  }

  /** The number the symbol values denote as base-32 digits, most significant first. */
  function Base32Value(vals: seq<nat>): nat
    requires forall i :: 0 <= i < |vals| ==> vals[i] < 32
  {
    if vals == [] then 0 else Base32Value(vals[..|vals| - 1]) * 32 + vals[|vals| - 1]
  }

  /** `parseInt(bits.substr(i, 8), 2)` for one complete 8-bit group. */
  function ByteOf(group: seq<Bit>): (b: bv8)
    requires |group| == 8
    ensures b as int == BitsValue(group)
  {
    BitsValueBound(group);
    assert Pow(2, 8) == 256;
    ByteRoundTrip(BitsValue(group));
    BitsValue(group) as bv8
  }

  /** One byte per complete 8-bit group of `bits`; a trailing partial group is dropped. */
  function Bytes(bits: seq<Bit>): seq<bv8>
  {
    seq(|bits| / 8, k requires 0 <= k < |bits| / 8 => ByteOf(bits[8 * k..8 * k + 8]))
  }

  /** The key bytes `base32Decode(s)` returns. */
  function Decode(s: string): seq<bv8>
  {
    Bytes(BitsOf(Symbols(s)))
  }

  /** `TOTP.base32Decode`: the bit-string loop followed by the byte loop. */
  method Base32Decode(base32: string) returns (key: seq<bv8>)
    ensures key == Decode(base32)
  {
    var text := Normalize(base32);
    var bits: seq<Bit> := [];
    var i := 0;
    while i < |text|
      invariant 0 <= i <= |text|
      invariant bits == BitsOf(ValidValues(text[..i]))
    {
      var val := IndexOf(text[i]);
      ValidValuesStep(text, i);
      if val != -1 {
        BitsOfStep(ValidValues(text[..i]), val);
        bits := bits + Bits5(val);
      }
      i := i + 1;
    }
    assert text[..i] == text;
    var hex: seq<bv8> := [];
    i := 0;
    while i + 8 <= |bits|
      invariant 0 <= i <= |bits| && i == 8 * |hex|
      invariant hex == Bytes(bits)[..|hex|]
    {
      BytesStep(bits, hex);
      hex := hex + [ByteOf(bits[i..i + 8])];
      i := i + 8;
    }
    BytesDone(bits, hex);
    key := hex;
  }

  /** The next complete 8-bit group gives the next byte. */
  lemma BytesStep(bits: seq<Bit>, hex: seq<bv8>)
    requires 8 * |hex| + 8 <= |bits| && hex == Bytes(bits)[..|hex|]
    ensures Bytes(bits)[..|hex| + 1] == hex + [ByteOf(bits[8 * |hex|..8 * |hex| + 8])]
  {
    assert Bytes(bits)[|hex|] == ByteOf(bits[8 * |hex|..8 * |hex| + 8]);
  }

  /** Once no complete group is left, every byte has been produced. */
  lemma BytesDone(bits: seq<Bit>, hex: seq<bv8>)
    requires 8 * |hex| <= |bits| < 8 * |hex| + 8 && hex == Bytes(bits)[..|hex|]
    ensures hex == Bytes(bits)
  {
    assert |hex| == |bits| / 8;
  }

  /** One more character of the normalised text adds its value, if it has one. */
  lemma ValidValuesStep(t: string, i: nat)
    requires i < |t|
    ensures IndexOf(t[i]) == -1 ==> ValidValues(t[..i + 1]) == ValidValues(t[..i])
    ensures IndexOf(t[i]) != -1 ==> ValidValues(t[..i + 1]) == ValidValues(t[..i]) + [IndexOf(t[i])]
  {
    assert t[..i + 1][..i] == t[..i];
    assert ValidValues(t[..i]) + [] == ValidValues(t[..i]);
  }

  /** One more symbol value adds its five bits. */
  lemma BitsOfStep(vals: seq<nat>, v: nat)
    requires forall i :: 0 <= i < |vals| ==> vals[i] < 32
    requires v < 32
    ensures BitsOf(vals + [v]) == BitsOf(vals) + Bits5(v)
  {
    assert (vals + [v])[..|vals|] == vals;
  }

  // ---------------------------------------------------------------------------
  // Normalisation and symbol extraction distribute over concatenation.

  lemma {:induction false} NormalizeAppend(a: string, b: string)
    ensures Normalize(a + b) == Normalize(a) + Normalize(b)
  {
    if b != [] {
      var b' := b[..|b| - 1];
      assert (a + b)[..|a + b| - 1] == a + b';
      NormalizeAppend(a, b');
    } else {
      assert a + b == a;
    }
  }

  lemma {:induction false} ValidValuesAppend(a: string, b: string)
    ensures ValidValues(a + b) == ValidValues(a) + ValidValues(b)
  {
    if b != [] {
      var b' := b[..|b| - 1];
      assert (a + b)[..|a + b| - 1] == a + b';
      ValidValuesAppend(a, b');
    } else {
      assert a + b == a;
    }
  }

  /** A single character normalises to nothing when it is whitespace and to its upper-case form otherwise. */
  lemma NormalizeChar(c: char)
    ensures Normalize([c]) == if IsWhitespace(c) then [] else [ToUpper(c)]
  {
    assert [c][..0] == [];
  }

  /** A single character contributes its value when it is a symbol and nothing otherwise. */
  lemma SymbolsOfChar(c: char)
    ensures Symbols([c]) == if IsSymbol(c) then [IndexOf(ToUpper(c))] else []
  {
    NormalizeChar(c);
    if IsWhitespace(c) {
      WhitespaceIsNotSymbol(c);
    } else {
      assert [ToUpper(c)][..0] == [];
    }
  }

  /** The symbols of `a + [c] + b` are those of `a`, then `c`'s if it is one, then those of `b`. */
  lemma SymbolsSplit(a: string, c: char, b: string)
    ensures Symbols(a + [c] + b)
         == Symbols(a) + (if IsSymbol(c) then [IndexOf(ToUpper(c))] else []) + Symbols(b)
  {
    NormalizeAppend(a + [c], b);
    NormalizeAppend(a, [c]);
    ValidValuesAppend(Normalize(a) + Normalize([c]), Normalize(b));
    ValidValuesAppend(Normalize(a), Normalize([c]));
    SymbolsOfChar(c);
  }

  // ---------------------------------------------------------------------------
  // Leniency: whitespace, letter case and characters outside the alphabet.

  /**
   * A character that is not a base32 symbol (whitespace, `0`, `1`, `8`, `9`,
   * punctuation, ...) adds no bits: removing it leaves the key unchanged.
   */
  lemma DecodeSkipsNonSymbol(a: string, c: char, b: string)
    requires !IsSymbol(c)
    ensures Decode(a + [c] + b) == Decode(a + b)
  {
    assert Symbols(a + [c] + b) == Symbols(a + b) by {
      SymbolsSplit(a, c, b);
      NormalizeAppend(a, b);
      ValidValuesAppend(Normalize(a), Normalize(b));
    }
  }

  /** Every whitespace character is skipped. */
  lemma DecodeSkipsWhitespace(a: string, c: char, b: string)
    requires IsWhitespace(c)
    ensures Decode(a + [c] + b) == Decode(a + b)
  {
    WhitespaceIsNotSymbol(c);
    DecodeSkipsNonSymbol(a, c, b);
  }

  /** A lower-case letter decodes exactly as its upper-case form. */
  lemma DecodeCaseInsensitive(a: string, c: char, b: string)
    requires 'a' <= c <= 'z'
    ensures Decode(a + [c] + b) == Decode(a + [ToUpper(c)] + b)
  {
    SymbolsSplit(a, c, b);
    SymbolsSplit(a, ToUpper(c), b);
  }

  // ---------------------------------------------------------------------------
  // Output length.

  lemma {:induction false} SymbolCount(s: string)
    ensures |Symbols(s)| == CountSymbols(s)
  {
    if s != [] {
      SymbolsSplit([], s[0], s[1..]);
      assert [] + [s[0]] + s[1..] == s;
      assert Symbols([]) == [];
      SymbolCount(s[1..]);
    } else {
      assert Symbols(s) == [];
    }
  }

  /**
   * The key has `floor(5 * v / 8)` bytes, where `v` counts the base32 symbols
   * of the input: the bits of a trailing partial byte are dropped.
   */
  lemma DecodeLength(s: string)
    ensures |Decode(s)| == 5 * CountSymbols(s) / 8
  {
    SymbolCount(s);
  }

  /** An input without base32 symbols (empty, blank, `!!!`) decodes to the empty key. */
  lemma DecodeNoSymbols(s: string)
    requires forall i :: 0 <= i < |s| ==> !IsSymbol(s[i])
    ensures Decode(s) == []
  {
    assert CountSymbols(s) == 0 by {
      CountZero(s);
    }
    DecodeLength(s);
  }

  lemma {:induction false} CountZero(s: string)
    requires forall i :: 0 <= i < |s| ==> !IsSymbol(s[i])
    ensures CountSymbols(s) == 0
  {
    if s != [] {
      CountZero(s[1..]);
    }
  }

  // ---------------------------------------------------------------------------
  // Bit order: each key byte is the corresponding 8 bits of the symbol values.

  /** A bit string of length `n` denotes a number below `2^n`. */
  lemma {:induction false} BitsValueBound(bits: seq<Bit>)
    ensures BitsValue(bits) < Pow(2, |bits|)
  {
    if bits != [] {
      BitsValueBound(bits[..|bits| - 1]);
    }
  }

  lemma {:induction false} BitsValueAppend(a: seq<Bit>, b: seq<Bit>)
    ensures BitsValue(a + b) == BitsValue(a) * Pow(2, |b|) + BitsValue(b)
  {
    if b == [] {
      assert a + b == a;
    } else {
      var b' := b[..|b| - 1];
      assert (a + b)[..|a + b| - 1] == a + b';
      BitsValueAppend(a, b');
      var p := Pow(2, |b'|);
      assert Pow(2, |b|) == p * 2;
      assert BitsValue(a + b) == BitsValue(a + b') * 2 + b[|b| - 1];
      ShiftIn(BitsValue(a), p, BitsValue(b'), 2, b[|b| - 1]);
    }
  }

  /** The bits `i..j` of a bit string, read as a number, are a digit window of its value. */
  lemma BitsValueSlice(b: seq<Bit>, i: nat, j: nat)
    requires i <= j <= |b|
    ensures BitsValue(b[i..j]) == BitsValue(b) / Pow(2, |b| - j) % Pow(2, j - i)
  {
    assert b == b[..j] + b[j..];
    BitsValueAppend(b[..j], b[j..]);
    BitsValueBound(b[j..]);
    BitsValueBound(b[i..j]);
    DivModUnique(BitsValue(b[..j]), Pow(2, |b| - j), BitsValue(b[j..]));
    assert b[..j] == b[..i] + b[i..j];
    BitsValueAppend(b[..i], b[i..j]);
    DivModUnique(BitsValue(b[..i]), Pow(2, j - i), BitsValue(b[i..j]));
  }

  lemma {:induction false} BitsOfValue(vals: seq<nat>)
    requires forall i :: 0 <= i < |vals| ==> vals[i] < 32
    ensures BitsValue(BitsOf(vals)) == Base32Value(vals)
  {
    if vals != [] {
      var init := vals[..|vals| - 1];
      BitsOfValue(init);
      BitsValueAppend(BitsOf(init), Bits5(vals[|vals| - 1]));
    }
  }

  /**
   * Byte `k` of the key is bits `8k..8k+7` of the concatenated 5-bit symbol
   * values, most significant bit first (RFC 4648 bit order): the key is the
   * leading whole bytes of the base-32 number the symbols spell.
   */
  lemma DecodeByte(s: string, k: nat)
    requires k < |Decode(s)|
    ensures Decode(s)[k] as int
         == Base32Value(Symbols(s)) / Pow(2, 5 * |Symbols(s)| - 8 * k - 8) % 256
  {
    var vals := Symbols(s);
    var bits := BitsOf(vals);
    var group := bits[8 * k..8 * k + 8];
    assert Decode(s)[k] == ByteOf(group);
    assert Pow(2, 8) == 256;
    BitsValueSlice(bits, 8 * k, 8 * k + 8);
    BitsOfValue(vals);
  }

  // ---------------------------------------------------------------------------
  // Examples.

  /** Whitespace, punctuation and case do not matter: `"AB CD-ef"` decodes as `"ABCDEF"`. */
  lemma LenientExample(s: string, t: string)
    requires s == "AB CD-ef" && t == "ABCDEF"
    ensures Decode(s) == Decode(t)
  {
    var ab, cd, e, f := "AB", "CD", 'e', 'f';
    var abcd := ab + cd;
    var rest := cd + ['-', e, f];
    calc {
      Decode(s);
      { assert s == ab + [' '] + rest; }
      Decode(ab + [' '] + rest);
      { DecodeSkipsWhitespace(ab, ' ', rest); }
      Decode(ab + rest);
      { assert ab + rest == abcd + ['-'] + [e, f]; }
      Decode(abcd + ['-'] + [e, f]);
      { OutsideAlphabet('-'); DecodeSkipsNonSymbol(abcd, '-', [e, f]); }
      Decode(abcd + [e, f]);
      { assert abcd + [e, f] == abcd + [e] + [f]; }
      Decode(abcd + [e] + [f]);
      { DecodeCaseInsensitive(abcd, e, [f]); }
      Decode(abcd + ['E'] + [f]);
      { assert abcd + ['E'] + [f] == (abcd + ['E']) + [f] + []; }
      Decode((abcd + ['E']) + [f] + []);
      { DecodeCaseInsensitive(abcd + ['E'], f, []); }
      Decode((abcd + ['E']) + ['F'] + []);
      { assert (abcd + ['E']) + ['F'] + [] == t; }
      Decode(t);
    }
  }
}

=== FILE: decimal.dfy ===
/**
 * The decimal formatting `generate` applies to the truncated value:
 * `otp.toString().padStart(digits, '0')`.
 */
module Decimal {
  import opened Arith

  predicate IsDigit(c: char)
  {
    '0' <= c <= '9'
  }

  predicate AllDigits(s: string)
  {
    forall i :: 0 <= i < |s| ==> IsDigit(s[i])
  }

  function DigitChar(d: nat): (c: char)
    requires d < 10
    ensures IsDigit(c) && c as int - '0' as int == d
  {
    ('0' as int + d) as char
  }

  /** The number a string of decimal digits denotes. */
  function DecimalValue(s: string): nat
    requires AllDigits(s)
  {
    if s == [] then 0
    else DecimalValue(s[..|s| - 1]) * 10 + (s[|s| - 1] as int - '0' as int)
  }

  /** `Number.prototype.toString()` of a non-negative integer: its decimal digits, no leading zero. */
  function ToDecimal(n: nat): (s: string)
    ensures 1 <= |s| && AllDigits(s)
  {
    if n < 10 then [DigitChar(n)] else ToDecimal(n / 10) + [DigitChar(n % 10)]
  }

  /** `String.prototype.padStart(length, fill)` with a one-character fill string. */
  function PadStart(s: string, length: int, fill: char): (r: string)
    ensures |r| == if length <= |s| then |s| else length
    ensures r[|r| - |s|..] == s
    ensures forall i :: 0 <= i < |r| - |s| ==> r[i] == fill
  {
    if length <= |s| then s else seq(length - |s|, _ => fill) + s
  }

  /** `otp.toString().padStart(digits, '0')` */
  function FormatCode(otp: nat, digits: nat): string
  {
    PadStart(ToDecimal(otp), digits, '0')
  }

  // ---------------------------------------------------------------------------
  // Properties.

  lemma {:induction false} DecimalValueAppend(a: string, b: string)
    requires AllDigits(a) && AllDigits(b)
    ensures AllDigits(a + b)
    ensures DecimalValue(a + b) == DecimalValue(a) * Pow(10, |b|) + DecimalValue(b)
  {
    if b == [] {
      assert a + b == a;
    } else {
      var b' := b[..|b| - 1];
      assert (a + b)[..|a + b| - 1] == a + b';
      DecimalValueAppend(a, b');
      assert DecimalValue(a + b) == DecimalValue(a + b') * 10 + (b[|b| - 1] as int - '0' as int);
      ShiftIn(DecimalValue(a), Pow(10, |b'|), DecimalValue(b'), 10, b[|b| - 1] as int - '0' as int);
    }
  }

  lemma {:induction false} ZerosValue(n: nat)
    ensures AllDigits(seq(n, _ => '0'))
    ensures DecimalValue(seq(n, _ => '0')) == 0
  {
    if n > 0 {
      ZerosValue(n - 1);
      assert seq(n, _ => '0')[..n - 1] == seq(n - 1, _ => '0');
    }
  }

  /** Reading back the digits `toString` produces gives the number. */
  lemma {:induction false} ToDecimalValue(n: nat)
    ensures DecimalValue(ToDecimal(n)) == n
  {
    if n < 10 {
      assert [DigitChar(n)][..0] == [];
    } else {
      var init := ToDecimal(n / 10);
      ToDecimalValue(n / 10);
      assert (init + [DigitChar(n % 10)])[..|init|] == init;
    }
  }

  /** `toString` writes no leading zero. */
  lemma {:induction false} ToDecimalNoLeadingZero(n: nat)
    ensures ToDecimal(n)[0] == '0' <==> n == 0
  {
    if n >= 10 {
      ToDecimalNoLeadingZero(n / 10);
    }
  }

  lemma {:induction false} ToDecimalBounds(n: nat)
    ensures n < Pow(10, |ToDecimal(n)|)
    ensures |ToDecimal(n)| > 1 ==> Pow(10, |ToDecimal(n)| - 1) <= n
  {
    if n >= 10 {
      var k := |ToDecimal(n / 10)|;
      ToDecimalBounds(n / 10);
      assert |ToDecimal(n)| == k + 1;
      assert Pow(10, k + 1) == 10 * Pow(10, k);
      assert n == 10 * (n / 10) + n % 10;
      if k > 1 {
        assert Pow(10, k) == 10 * Pow(10, k - 1);
      }
    }
  }

  /** For a width of at least one digit, `toString` fits exactly when the number is below `10^width`. */
  lemma ToDecimalFits(n: nat, width: nat)
    requires width >= 1
    ensures |ToDecimal(n)| <= width <==> n < Pow(10, width)
  {
    var k := |ToDecimal(n)|;
    ToDecimalBounds(n);
    if k <= width {
      PowMonotonic(10, k, width);
    } else {
      PowMonotonic(10, width, k - 1);
    }
  }

  /**
   * A value below `10^digits` is formatted as exactly `digits` decimal
   * characters, zero-padded on the left, that read back as the value.
   */
  lemma FormatCodeCorrect(otp: nat, digits: nat)
    requires digits >= 1 && otp < Pow(10, digits)
    ensures |FormatCode(otp, digits)| == digits
    ensures AllDigits(FormatCode(otp, digits))
    ensures DecimalValue(FormatCode(otp, digits)) == otp
    ensures FormatCode(otp, digits) == seq(digits - |ToDecimal(otp)|, _ => '0') + ToDecimal(otp)
  {
    var s := ToDecimal(otp);
    ToDecimalFits(otp, digits);
    PadWithZeros(s, digits);
    LeadingZeros(s, digits - |s|);
    ToDecimalValue(otp);
  }

  /** Leading zeros keep a digit string's value. */
  lemma LeadingZeros(s: string, n: nat)
    requires AllDigits(s)
    ensures AllDigits(seq(n, _ => '0') + s)
    ensures DecimalValue(seq(n, _ => '0') + s) == DecimalValue(s)
  {
    ZerosValue(n);
    DecimalValueAppend(seq(n, _ => '0'), s);
  }

  lemma PadWithZeros(s: string, length: int)
    requires |s| <= length
    ensures PadStart(s, length, '0') == seq(length - |s|, _ => '0') + s
  {
  }

  /** With zero digits requested the unpadded `toString` of the value, `"0"`, is returned. */
  lemma FormatCodeZeroWidth(otp: nat)
    requires otp < Pow(10, 0)
    ensures FormatCode(otp, 0) == "0"
  {
  }
}

=== FILE: octets.dfy ===
/** Byte strings read as unsigned big-endian numbers, and numbers written as bytes. */
module Octets {
  import opened Arith

  /** A number below 256 survives the round trip through a byte. */
  lemma ByteRoundTrip(x: nat)
    requires x < 256
    ensures (x as bv8) as int == x
  {
    // Narrowing the range first keeps the bit-vector reasoning small.
    if x < 128 {
      if x < 64 {} else {}
    } else {
      if x < 192 {} else {}
    }
  }

  /** The low `n` bytes of `v`, most significant first. */
  function BigEndian(v: nat, n: nat): (bytes: seq<bv8>)
    ensures |bytes| == n
  {
    if n == 0 then [] else BigEndian(v / 256, n - 1) + [(v % 256) as bv8]
  }

  /** The number a byte string denotes, most significant byte first. */
  function BigEndianValue(bytes: seq<bv8>): nat
  {
    if bytes == [] then 0 else BigEndianValue(bytes[..|bytes| - 1]) * 256 + bytes[|bytes| - 1] as int
  }

  lemma {:induction false} BigEndianRoundTrip(v: nat, n: nat)
    ensures BigEndianValue(BigEndian(v, n)) == v % Pow(256, n)
  {
    if n > 0 {
      var init := BigEndian(v / 256, n - 1);
      BigEndianRoundTrip(v / 256, n - 1);
      assert (init + [(v % 256) as bv8])[..n - 1] == init;
      ByteRoundTrip(v % 256);
      ModSplit(v, 256, Pow(256, n - 1));
    }
  }

  /** Byte `i` of the encoding is digit `n - 1 - i` of `v` in base 256: the most significant byte comes first. */
  lemma {:induction false} BigEndianByte(v: nat, n: nat, i: nat)
    requires i < n
    ensures BigEndian(v, n)[i] as int == v / Pow(256, n - 1 - i) % 256
  {
    ByteRoundTrip(v % 256);
    if i < n - 1 {
      BigEndianByte(v / 256, n - 1, i);
      DivDiv(v, 256, Pow(256, n - 2 - i));
    }
  }

  lemma BigEndianValue4(w: seq<bv8>)
    requires |w| == 4
    ensures BigEndianValue(w)
         == w[0] as int * 0x100_0000 + w[1] as int * 0x1_0000 + w[2] as int * 0x100 + w[3] as int
  {
    var w3, w2, w1 := w[..3], w[..2], w[..1];
    assert w3[..2] == w2 && w2[..1] == w1 && w1[..0] == [];
    assert BigEndianValue(w1) == w[0] as int;
    assert BigEndianValue(w2) == w[0] as int * 0x100 + w[1] as int;
    assert BigEndianValue(w3) == BigEndianValue(w2) * 0x100 + w[2] as int;
  }
}

=== FILE: totp.dfy ===
/**
 * The TOTP generator (RFC 6238): `TOTP.generate` and `TOTP.getRemainingSeconds`.
 *
 * `generate` decodes the base32 secret, derives the time counter
 * `floor(timestamp / 1000 / period)`, writes it as an unsigned 64-bit
 * big-endian integer, asks the platform for an HMAC of those 8 bytes under
 * the key, applies the dynamic truncation of RFC 4226 (section 5.3) and
 * formats the result as `digits` decimal characters.
 *
 * The HMAC itself (`TOTP.hmac`, a `crypto.subtle` call) is not modelled: it is
 * a parameter of type `Hmac`, of which only the digest length is assumed.
 * The wall clock (`Date.now()`) is a parameter `now`, in milliseconds.
 */
module Totp {
  import opened Arith
  import opened Octets
  import opened Truncation
  import Base32
  import opened Decimal

  datatype Option<+T> = None | Some(value: T)

  /** The hash functions the HMAC is computed with (`'SHA-1'`, `'SHA-256'`, `'SHA-512'`). */
  datatype Algorithm = SHA1 | SHA256 | SHA512

  function DigestLength(alg: Algorithm): nat
  {
    match alg
    case SHA1 => 20
    case SHA256 => 32
    case SHA512 => 64
  }

  /**
   * The platform HMAC: `Some(signature)`, or `None` when `importKey` or `sign`
   * rejects (an empty key, for one).
   */
  type Hmac = (Algorithm, seq<bv8>, seq<bv8>) -> Option<seq<bv8>>

  /** What is assumed of the platform HMAC: a signature is as long as the hash's output. */
  ghost predicate ProducesDigests(hmac: Hmac)
  {
    forall alg, key, msg :: hmac(alg, key, msg).Some? ==> |hmac(alg, key, msg).value| == DigestLength(alg)
  }

  /** The reason the promise `generate` returns is rejected. */
  datatype Failure =
    | RangeError    // `BigInt(counter)` of a counter that is not a finite number (period 0)
    | HmacRejected  // the platform HMAC rejected the key or failed

  datatype Result<+T> = Success(value: T) | Failure(failure: Failure)

  /** The destructured `options` of `generate`; `None` is a property left undefined. */
  datatype Options = Options(
    digits: Option<nat>,
    period: Option<int>,
    algorithm: Option<Algorithm>,
    timestamp: Option<int>)

  const DefaultDigits: nat := 6
  const DefaultPeriod: int := 60
  const DefaultAlgorithm: Algorithm := SHA256

  function OrElse<T>(o: Option<T>, default: T): T
  {
    match o
    case Some(v) => v
    case None => default
  }

  // ---------------------------------------------------------------------------
  // The time counter (section 4.2 of RFC 6238).

  /** `Math.floor(a / b)` for integers. */
  function FloorDiv(a: int, b: int): int
    requires b != 0
  {
    if b > 0 then a / b else -a / -b
  }

  /** `Math.floor(timestamp / 1000 / period)`, in exact arithmetic. */
  function Counter(timestamp: int, period: int): int
    requires period != 0
  {
    FloorDiv(timestamp, 1000 * period)
  }

  /** The counter is the floor of the exact quotient `timestamp / 1000 / period`. */
  lemma CounterIsFloor(timestamp: int, period: int)
    requires period != 0
    ensures (timestamp as real / 1000.0 / period as real).Floor == Counter(timestamp, period)
  {
    if period > 0 {
      assert timestamp as real / 1000.0 / period as real == timestamp as real / (1000 * period) as real;
      RealFloor(timestamp, 1000 * period);
    } else {
      assert timestamp as real / 1000.0 / period as real
          == (-timestamp) as real / (1000 * -period) as real;
      RealFloor(-timestamp, 1000 * -period);
    }
  }

  /** A timestamp lies in the window of its counter: `[c * 1000 * period, (c + 1) * 1000 * period)`. */
  lemma CounterWindow(timestamp: int, period: int)
    requires period > 0
    ensures Counter(timestamp, period) * (1000 * period) <= timestamp
    ensures timestamp < (Counter(timestamp, period) + 1) * (1000 * period)
  {
  }

  /** Every timestamp of the window of counter `c` has counter `c`. */
  lemma CounterStable(timestamp: int, period: int, c: int)
    requires period > 0
    requires c * (1000 * period) <= timestamp < (c + 1) * (1000 * period)
    ensures Counter(timestamp, period) == c
  {
    DivModUnique(c, 1000 * period, timestamp - c * (1000 * period));
  }

  /** The counter never decreases as time advances. */
  lemma CounterMonotonic(t1: int, t2: int, period: int)
    requires period > 0 && t1 <= t2
    ensures Counter(t1, period) <= Counter(t2, period)
  {
    var m := 1000 * period;
    var c1, c2 := t1 / m, t2 / m;
    MultipleBound(c1 - c2, m);
    assert c1 * m - c2 * m == (c1 - c2) * m;
  }

  // ---------------------------------------------------------------------------
  // The 8-byte counter buffer.

  const TwoTo64: nat := 0x1_0000_0000_0000_0000

  /**
   * `new DataView(buffer).setBigUint64(0, BigInt(counter), false)`: the counter
   * reduced modulo `2^64`, written as 8 bytes in big-endian order.
   */
  function CounterBytes(counter: int): seq<bv8>
  {
    BigEndian(counter % TwoTo64, 8)
  }

  /** The counter buffer holds 8 bytes that read back, big-endian, as the counter modulo `2^64`. */
  lemma CounterBytesRoundTrip(counter: int)
    ensures |CounterBytes(counter)| == 8
    ensures BigEndianValue(CounterBytes(counter)) == counter % TwoTo64
    ensures 0 <= counter < TwoTo64 ==> BigEndianValue(CounterBytes(counter)) == counter
  {
    var v := counter % TwoTo64;
    PowTwoTo64();
    BigEndianRoundTrip(v, 8);
    assert v % TwoTo64 == v by {
      DivModUnique(0, TwoTo64, v);
    }
    if 0 <= counter < TwoTo64 {
      DivModUnique(0, TwoTo64, counter);
    }
  }

  lemma PowTwoTo64()
    ensures Pow(256, 8) == TwoTo64
  {
    var p2 := Pow(256, 2);
    assert p2 == 0x1_0000;
    var p4 := Pow(256, 4);
    PowAdd(256, 2, 2);
    assert p4 == 0x1_0000_0000;
    PowAdd(256, 4, 4);
  }

  /** Byte `i` of the counter buffer is byte `7 - i` of the counter: big-endian order. */
  lemma CounterBytesOrder(counter: int, i: nat)
    requires i < 8
    ensures CounterBytes(counter)[i] as int == counter % TwoTo64 / Pow(256, 7 - i) % 256
  {
    BigEndianByte(counter % TwoTo64, 8, i);
  }

  // ---------------------------------------------------------------------------
  // The truncation window.

  /** For every supported hash the window (offset at most 15, 4 bytes) lies inside the digest. */
  lemma WindowFitsDigest(alg: Algorithm, digest: seq<bv8>)
    requires |digest| == DigestLength(alg)
    ensures Offset(digest) + 3 < |digest|
  {
  }

  // ---------------------------------------------------------------------------
  // generate.

  /** The settings `generate` runs with once the defaults are filled in. */
  datatype Settings = Settings(digits: nat, period: int, algorithm: Algorithm, timestamp: int)

  /**
   * The destructuring of `options`: a property that is given is used as is,
   * and one left undefined takes its default (6 digits, a 60-second period,
   * SHA-256, the current time).
   */
  function Resolve(options: Options, now: int): (s: Settings)
    ensures s.digits == if options.digits.Some? then options.digits.value else 6
    ensures s.period == if options.period.Some? then options.period.value else 60
    ensures s.algorithm == if options.algorithm.Some? then options.algorithm.value else SHA256
    ensures s.timestamp == if options.timestamp.Some? then options.timestamp.value else now
  {
    Settings(
      OrElse(options.digits, DefaultDigits),
      OrElse(options.period, DefaultPeriod),
      OrElse(options.algorithm, DefaultAlgorithm),
      OrElse(options.timestamp, now))
  }

  /** The code for one counter value: HMAC, truncation, `binary % 10^digits`, padding. */
  function Hotp(hmac: Hmac, key: seq<bv8>, counter: int, digits: nat, alg: Algorithm): (r: Result<string>)
    requires ProducesDigests(hmac)
    ensures r.Success? <==> hmac(alg, key, CounterBytes(counter)).Some?
    ensures r.Failure? ==> r.failure == HmacRejected
    ensures r.Success? && digits >= 1 ==>
      && |r.value| == digits && AllDigits(r.value)
      && DecimalValue(r.value) == Truncate(hmac(alg, key, CounterBytes(counter)).value) % Pow(10, digits)
    ensures r.Success? && digits == 0 ==> r.value == "0"
  {
    match hmac(alg, key, CounterBytes(counter))
    case None => Failure(HmacRejected)
    case Some(digest) =>
      var binary := Truncate(digest);
      TruncateSpec(digest);
      FormatCodeCorrectWhenWide(binary % Pow(10, digits), digits);
      Success(FormatCode(binary % Pow(10, digits), digits))
  }

  lemma FormatCodeCorrectWhenWide(otp: nat, digits: nat)
    requires otp < Pow(10, digits)
    ensures digits >= 1 ==>
      |FormatCode(otp, digits)| == digits && AllDigits(FormatCode(otp, digits))
      && DecimalValue(FormatCode(otp, digits)) == otp
    ensures digits == 0 ==> FormatCode(otp, digits) == "0"
  {
    if digits >= 1 {
      FormatCodeCorrect(otp, digits);
    }
  }

  /**
   * `TOTP.generate(secret, options)`, with `Date.now()` passed in as `now`.
   * The promise is rejected with a `RangeError` when the period is 0, and with
   * the platform's error (`HmacRejected`) when the HMAC rejects the key.
   * Otherwise it resolves to `digits` decimal characters (for at least one
   * digit) whose value is the truncated HMAC of the decoded secret over the
   * 8-byte big-endian counter, modulo `10^digits`.
   */
  function Generate(hmac: Hmac, secret: string, options: Options, now: int): (r: Result<string>)
    requires ProducesDigests(hmac)
    ensures Resolve(options, now).period == 0 ==> r == Failure(RangeError)
    ensures var s := Resolve(options, now);
      s.period != 0 ==>
      var digest := hmac(s.algorithm, Base32.Decode(secret), CounterBytes(Counter(s.timestamp, s.period)));
      && (r.Success? <==> digest.Some?)
      && (r.Failure? ==> r.failure == HmacRejected)
      && (r.Success? && s.digits >= 1 ==>
            && |r.value| == s.digits && AllDigits(r.value)
            && DecimalValue(r.value) == Truncate(digest.value) % Pow(10, s.digits)
            && 0 <= Truncate(digest.value) < 0x8000_0000)
      && (r.Success? && s.digits == 0 ==> r.value == "0")
  {
    var s := Resolve(options, now);
    var key := Base32.Decode(secret);
    if s.period == 0 then Failure(RangeError)
    else Hotp(hmac, key, Counter(s.timestamp, s.period), s.digits, s.algorithm)
  }

  /** Two timestamps with the same counter give the same code. */
  lemma SameCounterSameCode(hmac: Hmac, secret: string, options: Options, now: int, t1: int, t2: int)
    requires ProducesDigests(hmac)
    requires Resolve(options, now).period != 0
    requires Counter(t1, Resolve(options, now).period) == Counter(t2, Resolve(options, now).period)
    ensures Generate(hmac, secret, options.(timestamp := Some(t1)), now)
         == Generate(hmac, secret, options.(timestamp := Some(t2)), now)
  {
  }

  /** A platform that rejects empty HMAC keys rejects a secret with fewer than two base32 symbols. */
  lemma ShortSecretRejected(hmac: Hmac, secret: string, options: Options, now: int)
    requires ProducesDigests(hmac)
    requires forall alg, msg :: hmac(alg, [], msg).None?
    requires Resolve(options, now).period != 0
    requires Base32.CountSymbols(secret) < 2
    ensures Generate(hmac, secret, options, now) == Failure(HmacRejected)
  {
    Base32.DecodeLength(secret);
  }

  // ---------------------------------------------------------------------------
  // getRemainingSeconds.

  /** JavaScript's `%`: the remainder has the sign of the dividend. */
  function JsRem(a: int, b: int): (r: int)
    requires b != 0
  {
    var m := if b > 0 then b else -b;
    if a >= 0 then a % m else -((-a) % m)
  }

  /** `period - (Math.floor(Date.now() / 1000) % period)`, with `Date.now()` passed in as `now`. */
  function RemainingSeconds(period: int, now: int): (r: int)
    requires period != 0
    ensures period > 0 && now >= 0 ==> 1 <= r <= period
    ensures period > 0 && now < 0 ==> period <= r < 2 * period
  {
    period - JsRem(FloorDiv(now, 1000), period)
  }

  /** `getRemainingSeconds(period = 60)`: an omitted period is 60 seconds. */
  function GetRemainingSeconds(period: Option<int>, now: int): (r: int)
    requires period != Some(0)
    ensures period.None? && now >= 0 ==> 1 <= r <= 60
    ensures period.Some? ==> r == RemainingSeconds(period.value, now)
  {
    RemainingSeconds(OrElse(period, DefaultPeriod), now)
  }

  /**
   * `JsRem` is JavaScript's remainder: it has the sign of the dividend, is
   * smaller than the divisor in magnitude, and differs from the dividend by a
   * multiple of the divisor.
   */
  lemma JsRemSpec(a: int, b: int)
    requires b != 0
    ensures a >= 0 ==> 0 <= JsRem(a, b) < if b > 0 then b else -b
    ensures a < 0 ==> -(if b > 0 then b else -b) < JsRem(a, b) <= 0
    ensures (a - JsRem(a, b)) % (if b > 0 then b else -b) == 0
  {
    var m := if b > 0 then b else -b;
    var n := if a >= 0 then a else -a;
    DivMod(n, m);
    var q := if a >= 0 then n / m else -(n / m);
    assert a - JsRem(a, b) == q * m + 0;
    DivModUnique(q, m, 0);
  }

  /** Sampled once a second the countdown decreases by one, and restarts at `period` after 1. */
  lemma RemainingCountdown(period: int, now: int)
    requires period > 0 && now >= 0
    ensures RemainingSeconds(period, now + 1000)
         == if RemainingSeconds(period, now) > 1 then RemainingSeconds(period, now) - 1 else period
  {
    RemainingOfSecond(period, now);
    RemainingOfSecond(period, now + 1000);
    NextSecond(now);
    NextRemainder(now / 1000, period);
  }

  /** For a non-negative clock the remaining seconds are `period` minus the second's remainder. */
  lemma RemainingOfSecond(period: int, now: int)
    requires period > 0 && now >= 0
    ensures RemainingSeconds(period, now) == period - now / 1000 % period
  {
  }

  lemma NextSecond(now: int)
    ensures (now + 1000) / 1000 == now / 1000 + 1
  {
    DivMod(now, 1000);
    DivModUnique(now / 1000 + 1, 1000, now % 1000);
  }

  /** The remainder modulo `period` steps up by one and wraps to 0 at `period`. */
  lemma NextRemainder(s: int, period: int)
    requires period > 0
    ensures (s + 1) % period == if s % period + 1 < period then s % period + 1 else 0
  {
    var q, r := s / period, s % period;
    DivMod(s, period);
    if r + 1 < period {
      DivModUnique(q, period, r + 1);
    } else {
      DivModUnique(q + 1, period, 0);
    }
  }

  /**
   * The remaining seconds are the whole seconds until the counter ticks: one
   * second earlier the counter is unchanged, and after them it has advanced by one.
   */
  lemma RemainingUntilNextCounter(period: int, now: int)
    requires period > 0 && now >= 0
    ensures var r := RemainingSeconds(period, now);
      && Counter(now + 1000 * (r - 1), period) == Counter(now, period)
      && Counter(now + 1000 * r, period) == Counter(now, period) + 1
  {
    var r := RemainingSeconds(period, now);
    var s := now / 1000;
    assert r == period - s % period;
    SecondsLater(now, period, r - 1);
    SecondsLater(now, period, r);
    SecondsLater(now, period, 0);
    NextMultiple(s, period);
  }

  /** From second `s`, the next multiple of `period` is `period - s % period` seconds away. */
  lemma NextMultiple(s: int, period: int)
    requires period > 0
    ensures (s + (period - s % period) - 1) / period == s / period
    ensures (s + (period - s % period)) / period == s / period + 1
  {
    var q := s / period;
    assert s + (period - s % period) - 1 == q * period + (period - 1);
    assert s + (period - s % period) == (q + 1) * period + 0;
    DivModUnique(q, period, period - 1);
    DivModUnique(q + 1, period, 0);
  }

  /** `k` whole seconds after `now`, the counter is that of the second `now / 1000 + k`. */
  lemma SecondsLater(now: int, period: int, k: int)
    requires period > 0
    ensures Counter(now + 1000 * k, period) == (now / 1000 + k) / period
  {
    DivDiv(now + 1000 * k, 1000, period);
    DivModUnique(now / 1000 + k, 1000, now % 1000);
  }

  // ---------------------------------------------------------------------------
  // Example from section 5.4 of RFC 4226.

  /** The digest `1f8698690e02ca16618550ef7f19da8e945b555a` truncates to `0x50ef7f19` and the code `872921`. */
  lemma Rfc4226TruncationExample(digest: seq<bv8>)
    requires digest == [
      0x1f, 0x86, 0x98, 0x69, 0x0e, 0x02, 0xca, 0x16, 0x61, 0x85,
      0x50, 0xef, 0x7f, 0x19, 0xda, 0x8e, 0x94, 0x5b, 0x55, 0x5a]
    ensures Offset(digest) == 10
    ensures Truncate(digest) == 0x50ef7f19
    ensures FormatCode(Truncate(digest) % Pow(10, 6), 6) == "872921"
  {
    assert digest[19] == 0x5a;
    assert digest[10..14] == [0x50, 0xef, 0x7f, 0x19];
    CombineValue(0x50, 0xef, 0x7f, 0x19);
    var million := Pow(10, 6);
    assert million == 1_000_000;
    var otp := 0x50ef7f19 % million;
    assert otp == 872921;
    assert ToDecimal(otp) == "872921";
  }
}

=== FILE: truncation.dfy ===
/**
 * The dynamic truncation of RFC 4226 (section 5.3) as `generate` writes it:
 * the low nibble of the last digest byte selects a 4-byte window, which is
 * combined with shifts and `|` into a 31-bit number.
 */
module Truncation {
  import opened Arith
  import opened Octets

  /** `hmac[hmac.length - 1] & 0x0f`: the low nibble of the last digest byte. */
  function Offset(digest: seq<bv8>): (offset: nat)
    requires |digest| >= 1
    ensures offset <= 15
    ensures offset == digest[|digest| - 1] as int % 16
  {
    (digest[|digest| - 1] & 0x0f) as int
  }

  /** JavaScript's reading of a 32-bit pattern as a signed integer (`ToInt32`). */
  function Int32(b: bv32): (r: int)
    ensures -0x8000_0000 <= r < 0x8000_0000
    ensures (r - b as int) % 0x1_0000_0000 == 0
  {
    var n := b as int;
    if n < 0x8000_0000 then n else n - 0x1_0000_0000
  }

  /** The four selected bytes combined with `<<` and `|`, the first masked with `0x7f`. */
  function Combine(b0: bv8, b1: bv8, b2: bv8, b3: bv8): int
  {
    Int32(((b0 & 0x7f) as bv32 << 24) | ((b1 & 0xff) as bv32 << 16)
          | ((b2 & 0xff) as bv32 << 8) | (b3 & 0xff) as bv32)
  }

  /** `binary` of `generate`: the 4-byte window at `Offset(digest)`, combined. */
  function Truncate(digest: seq<bv8>): (binary: int)
    requires |digest| >= 20
    ensures 0 <= binary < 0x8000_0000
  {
    var offset := Offset(digest);
    CombineSpec(digest[offset], digest[offset + 1], digest[offset + 2], digest[offset + 3]);
    Combine(digest[offset], digest[offset + 1], digest[offset + 2], digest[offset + 3])
  }

  lemma CombineValue(b0: bv8, b1: bv8, b2: bv8, b3: bv8)
    ensures Combine(b0, b1, b2, b3)
         == (b0 as int % 128) * 0x100_0000 + b1 as int * 0x1_0000 + b2 as int * 0x100 + b3 as int
  {
  }

  /**
   * The window never leaves a digest of at least 20 bytes, and `binary` is
   * the window read as a big-endian number with its top bit cleared: a value
   * in `[0, 2^31)`.
   */
  lemma TruncateSpec(digest: seq<bv8>)
    requires |digest| >= 20
    ensures Offset(digest) + 4 <= 19 < |digest|
    ensures Truncate(digest)
         == BigEndianValue(digest[Offset(digest)..Offset(digest) + 4]) % 0x8000_0000
    ensures 0 <= Truncate(digest) < 0x8000_0000
  {
    var o := Offset(digest);
    var w := digest[o..o + 4];
    assert w == [digest[o], digest[o + 1], digest[o + 2], digest[o + 3]];
    CombineSpec(digest[o], digest[o + 1], digest[o + 2], digest[o + 3]);
  }

  /** The combined window is the big-endian value of the four bytes with bit 31 cleared. */
  lemma CombineSpec(b0: bv8, b1: bv8, b2: bv8, b3: bv8)
    ensures Combine(b0, b1, b2, b3) == BigEndianValue([b0, b1, b2, b3]) % 0x8000_0000
    ensures 0 <= Combine(b0, b1, b2, b3) < 0x8000_0000
  {
    CombineValue(b0, b1, b2, b3);
    BigEndianValue4([b0, b1, b2, b3]);
    ClearTopBit(b0 as int, b1 as int * 0x1_0000 + b2 as int * 0x100 + b3 as int);
  }
}
